=== FILE: README.md ===
# A verified model of Hyperf's file-system cache driver

This project models `FileSystemDriver`, the cache driver that stores one
file per key under a store directory. It is written in Dafny as pure
transitions over an abstract filesystem. The filesystem is a finite map from
path strings to nodes. A node is either a regular file, which has contents,
or a directory. Both kinds carry an `is_writable` flag; `delete` looks at it
for a directory at a key's path as well as for a file. A driver is fixed by its `Layout`:
store path, directory separator and key prefix. It also carries its packer
and the expiry rule of its entries. Each operation takes the filesystem and
returns its result, plus the new filesystem when it writes.

Modules, leaves first:

- `Results` holds `Option`, `Result` and the driver's exceptions.
- `FileStore` models the filesystem and the PHP primitives the driver calls:
  `file_exists`, `is_dir`, `is_writable`, `file_get_contents`,
  `file_put_contents` and `unlink`.
- `KeyCodec` holds `getPrefix` and `getCacheKey`, the inverse decoding, and
  injectivity of path strings within one driver. It also shows that the
  mapping is not injective across drivers.
- `Entries` holds `FileStorage`, the packer, and the losslessness assumption.
- `FileSystemDriver` holds the constructor's directory check, `get`,
  `fetch`, `set`, `delete` and `has`.
- `BatchOperations` holds `getMultiple`, `setMultiple` and `deleteMultiple`.
- `PrefixScanner` holds `clearPrefix` and `clear`.
- `DriverProperties` relates the operations to each other.
- `Scenarios` holds two concrete call sequences: a batch read after two writes, and a prefix-scoped clear that spares a key outside the prefix.

Assumptions made explicit:

- The packer is a pair of function values. `Lossless(packer)` is the
  assumption that `unpack(pack(e)) == e`. It is never proved. Every lemma
  that needs it takes it as a precondition.
- Expiry is a function value `isExpired(entry, now)`, because the
  `FileStorage` class is not part of this model. `DeadlineExpired` is one
  concrete rule: no TTL never expires, otherwise the entry expires at
  `createdAt + ttl`. Only the example lemmas that name it use it.
- The outcome of `file_put_contents` is an oracle `writeOk`. The write
  happens only when the oracle allows it and the path is absent or a
  writable regular file. `set` returns `(bool)` of the byte count, so it
  reports success only for a write of a non-empty encoding.
- The order in which `glob` lists paths is a parameter. Its one
  requirement (`IsListing`) is that it lists exactly the existing paths
  that start with the pattern.

Where the code's behaviour is easy to misread, the model follows the code:

- Prefixes do not isolate drivers that share a store. `getCacheKey` joins
  prefix and key with nothing between them. So prefix "a" with key "bc" and
  prefix "ab" with key "c" share one file (`KeyCodec.PrefixCollision`).
  Also, `clear` on a driver removes the files of every driver whose prefix
  extends its own (`DriverProperties.ClearReachesLongerPrefix`).
- No default TTL is applied. A missing TTL reaches `FileStorage` as is.
- `set` of an entry whose encoding is empty writes the file yet returns
  false (`DriverProperties.EmptyEncodingReportsFailure`).
- `delete` of a key whose path is a writable directory returns true and
  leaves the directory in place. `unlink` fails there, and its result is
  ignored.
- `has` is true for a directory at the key's path. `get` and `fetch` read
  the empty string there, so they raise unless the packer decodes the empty
  string, and otherwise return what it decodes to.

## Model

| member | source | states |
|---|---|---|
| KeyCodec.GetPrefix | src/cache/src/Driver/FileSystemDriver.php:163-166 | the driver prefix is the store directory, then the separator, then the driver's prefix, so every path of the driver lies in the store directory |
| KeyCodec.CacheKey | src/cache/src/Driver/FileSystemDriver.php:38-41 | the path begins with the driver prefix, holds the key after it, and ends with ".cache"; its length is the sum of the three |
| KeyCodec.KeyOfCacheKey | src/cache/src/Driver/FileSystemDriver.php:38-41 | stripping the driver prefix and the ".cache" suffix from a key's path gives the key back |
| KeyCodec.CacheKeyOfKeyOf | src/cache/src/Driver/FileSystemDriver.php:38-41 | every path that decodes to a key is exactly that key's path, so decoding is a two-sided inverse on its domain |
| KeyCodec.CacheKeyInjective | src/cache/src/Driver/FileSystemDriver.php:38-41 | within one driver two keys share a path string if and only if they are equal |
| KeyCodec.CacheKeyAcrossPrefixes | src/cache/src/Driver/FileSystemDriver.php:163-166 | for two drivers on one store, two paths coincide exactly when prefix + key coincide |
| KeyCodec.PrefixCollision | src/cache/src/Driver/FileSystemDriver.php:163-166 | prefix "a" with key "bc" and prefix "ab" with key "c" map to the same file |
| KeyCodec.LongerPrefixNested | src/cache/src/Driver/FileSystemDriver.php:163-166 | every path of a driver whose prefix extends another's starts with the other driver's prefix |
| FileSystemDriver.Construct | src/cache/src/Driver/FileSystemDriver.php:27-36 | construction fails with the no-permission error exactly when the store path is missing and mkdir fails; on success the store path exists and nothing else changed |
| FileSystemDriver.Get | src/cache/src/Driver/FileSystemDriver.php:43-57 | a missing path gives the default; an entry that does not decode raises; a live entry gives its data; a present but expired entry gives the default; a directory at the path reads as the empty string, so it raises exactly when the packer cannot decode that |
| FileSystemDriver.Fetch | src/cache/src/Driver/FileSystemDriver.php:59-73 | raises exactly when get raises, with get's error, so a directory at the path raises exactly when the packer cannot decode the empty string; its second component equals get's result; its flag is true exactly when a live entry exists, and is false only alongside the default |
| FileSystemDriver.Set | src/cache/src/Driver/FileSystemDriver.php:75-83 | the write happens exactly when the oracle allows it and the path is free or a writable file, and then the path holds a writable file whose contents are exactly the packed new entry, so it unpacks to that entry under a lossless packer; otherwise nothing changes; it returns true exactly when the write happened and the encoding is non-empty; no other path ever changes |
| FileSystemDriver.Has | src/cache/src/Driver/FileSystemDriver.php:143-148 | true exactly when something is at the key's path; true for every key a read finds live, and when false every fetch is a miss with the default |
| FileSystemDriver.Delete | src/cache/src/Driver/FileSystemDriver.php:85-96 | returns false exactly when the path exists and is not writable; the path is gone afterwards exactly when it was a file and the delete succeeded; no other path changes |
| BatchOperations.ReadEach | src/cache/src/Driver/FileSystemDriver.php:109-112 | for any per-key read, the map succeeds exactly when every read succeeds; its keys are the input keys and each maps to that key's read; an error is the first failing key's error |
| BatchOperations.GetMultiple | src/cache/src/Driver/FileSystemDriver.php:103-115 | a non-array raises the invalid-keys error; otherwise every input key maps to its get result, the read fails exactly when some single read fails, and then with the first failing key's error |
| BatchOperations.SetEach | src/cache/src/Driver/FileSystemDriver.php:123-125 | setting the pairs in turn changes no path outside the pairs' paths |
| BatchOperations.SetMultiple | src/cache/src/Driver/FileSystemDriver.php:117-128 | a non-array raises the invalid-values error before any write; otherwise it returns true whatever the writes did, and only the pairs' paths can change |
| BatchOperations.DeleteEach | src/cache/src/Driver/FileSystemDriver.php:136-138 | deleting the keys in turn removes exactly the writable regular files among their paths and leaves every other node as it was |
| BatchOperations.DeleteMultiple | src/cache/src/Driver/FileSystemDriver.php:130-141 | a non-array raises the invalid-keys error before any delete; otherwise it returns true even when single deletes fail, removing exactly the writable files among the keys' paths |
| PrefixScanner.UnlinkEach | src/cache/src/Driver/FileSystemDriver.php:153-158 | walking a listing removes exactly the listed regular files, skips directories and repeated entries, and leaves every other node unchanged |
| PrefixScanner.ClearPrefix | src/cache/src/Driver/FileSystemDriver.php:150-161 | removes exactly the regular files whose path starts with the driver prefix followed by the given prefix, keeps directories and other paths unchanged, and returns true |
| PrefixScanner.Clear | src/cache/src/Driver/FileSystemDriver.php:98-101 | is clearPrefix with the empty prefix: removes every regular file under the driver prefix |
| DriverProperties.SetThenGet | src/cache/src/Driver/FileSystemDriver.php:75-83 | after a successful set, a read while the new entry is unexpired returns the value set, fetch reports a hit, and has is true (under a lossless packer) |
| DriverProperties.EmptyEncodingReportsFailure | src/cache/src/Driver/FileSystemDriver.php:80-82 | a set whose encoding is empty writes the file, so has is true, yet returns false |
| DriverProperties.HasIgnoresExpiry | src/cache/src/Driver/FileSystemDriver.php:143-148 | for a decodable but expired entry, has is true while get returns the default and fetch reports a miss |
| DriverProperties.PositiveTtlIsReadBack | src/cache/src/Driver/FileSystemDriver.php:75-83 | under the deadline rule, a value set with TTL t is read back at any time before now + t |
| DriverProperties.PastTtlIsPresentButMissed | src/cache/src/Driver/FileSystemDriver.php:52-54 | under the deadline rule, a value set with a TTL of zero or less is present for has yet get returns the default |
| DriverProperties.SetLeavesOtherKeys | src/cache/src/Driver/FileSystemDriver.php:75-83 | set of one key leaves get and has of every other key (another path string) of the same driver unchanged |
| DriverProperties.DeleteIdempotent | src/cache/src/Driver/FileSystemDriver.php:85-96 | a second delete returns what the first returned and leaves the same filesystem |
| DriverProperties.DeleteThenMiss | src/cache/src/Driver/FileSystemDriver.php:85-96 | after a successful delete of a path that is not a directory, has is false and get returns the default |
| DriverProperties.DeleteLeavesOtherKeys | src/cache/src/Driver/FileSystemDriver.php:85-96 | delete of one key leaves get and has of every other key (another path string) of the same driver unchanged |
| DriverProperties.ClearThenHas | src/cache/src/Driver/FileSystemDriver.php:98-101 | after clear, has of any key is true exactly when its path was a directory |
| DriverProperties.ClearReachesLongerPrefix | src/cache/src/Driver/FileSystemDriver.php:150-161 | clear on a driver also empties every driver of the same store whose prefix extends its own, except for directories |
| DriverProperties.ClearPrefixOrderIndependent | src/cache/src/Driver/FileSystemDriver.php:152-158 | clearPrefix gives the same result for any listing order of the matching paths |
| DriverProperties.SetEachOutcome | src/cache/src/Driver/FileSystemDriver.php:123-125 | with distinct keys, each pair's path ends up holding that pair's entry if its write went through, and its old contents otherwise |
| DriverProperties.SetMultipleThenGetMultiple | src/cache/src/Driver/FileSystemDriver.php:117-128 | after setMultiple, getMultiple of a pair whose write went through and whose entry is unexpired returns that pair's value |
| Scenarios.GetMultipleAfterTwoSets | src/cache/src/Driver/FileSystemDriver.php:103-115 | set("a","1",10), set("b","2",10), then getMultiple(["a","b","c"],"default") is {a:"1", b:"2", c:"default"} |
| Scenarios.ClearPrefixSparesOtherKeys | src/cache/src/Driver/FileSystemDriver.php:150-161 | after three successful sets of "user:1", "user:2" and "order:1" from any starting state, clearPrefix("user:") removes the first two and "order:1" is still read back before its deadline |

## Left out

- Real filesystem I/O is replaced by the map. The failure of `file_put_contents` is an oracle. A failed write leaves the file as it was; partial or truncated writes are not modelled.
- `unlink` is assumed to succeed on regular files. Its failure, which depends on the parent directory's permissions, is not modelled, because the code never looks at its result. `file_get_contents` on an unreadable file is not modelled either.
- `glob` is reduced to plain string-prefix matching. Glob metacharacters in a prefix, `*` stopping at directory separators, and `glob` returning false are not modelled.
- PrefixScanner.ClearPrefix: `glob` does not match a name starting with "." when the last pattern part is a bare `*` (driver prefix and sub-prefix both empty), so such files survive `clear()` there; the model removes them, and `DriverProperties.ClearThenHas` is stated for the plain-prefix listing.
- The constructor's `mkdir` creates only the store directory. Recursive creation of parent directories is not modelled. Neither is the `parent::__construct` and container wiring.
- `FileStorage` internals and TTL arithmetic are not part of this model. Expiry is a parameter of the driver, and the entry records its value, its TTL and the clock at construction. `DateInterval` TTLs are not modelled.
- The packer's encoding format is not modelled. Losslessness is an assumption (`Entries.Lossless`), not a proved fact.
- In PHP, reading a path that does not decode throws whatever the packer or `FileStorage` throws. The model raises a single `CorruptEntry` error for it.
- Order of the array returned by `getMultiple` is not modelled (a map is returned), nor is PHP's coercion of numeric-string keys to integers. Keys are strings.
- BatchOperations.SetMultiple: keys are typed as strings, which excludes this mid-batch failure. PHP turns numeric-string array keys such as "123" into integers, and under `strict_types` the call `set(123, ...)` throws a TypeError at `getCacheKey(string $key)` after the earlier pairs were already written. The model never raises for an array.
- KeyCodec.CacheKeyInjective: paths are compared as strings and are not normalised ("//", ".", "..", symbolic links). Two keys such as "/x" and "x" under an empty prefix give different strings that name one file. `CacheKeyInjective`, `DriverProperties.SetLeavesOtherKeys` and `DriverProperties.DeleteLeavesOtherKeys` are about path strings, which match real files only for keys without separators or traversal sequences.
- The model gives every pair of one `setMultiple` the same clock reading `now`; PHP builds each entry in its own `set` call and so reads the clock once per pair.
- FileSystemDriver.Set: `pack` is a total function, so `set` never raises. In PHP, a value the packer cannot encode (a serializing packer given a closure, say) throws before the write, and inside `setMultiple` it throws after the earlier pairs were already written; `BatchOperations.SetMultiple` inherits this gap.
- BatchOperations.SetEach: states only the frame (no path outside the pairs' paths changes); what each pair's path holds is proved separately in `DriverProperties.SetEachOutcome`, for distinct keys as PHP arrays have.
- Concurrency and check-then-act races between processes are not modelled.
- `src/event/src/ListenerData.php` is a plain data holder and is not part of this model.

=== FILE: batch.dfy ===
/**
 The multi-key operations: each repeats a single-key operation per element,
 in the caller's order, with no atomicity across keys.
 */
module BatchOperations {
  import opened Results
  import opened FileStore
  import opened KeyCodec
  import opened Entries
  import opened FileSystemDriver

  /** A PHP argument as `is_array` sees it: an array of elements, or anything
      else. */
  datatype Arg<T> = IsArray(items: seq<T>) | NotArray

  const KeysInvalid: string := "The keys is invalid!"
  const ValuesInvalid: string := "The values is invalid!"

  /** The paths of a list of keys. */
  function KeyPaths(l: Layout, keys: seq<string>): (r: set<string>)
    ensures forall k :: k in keys ==> CacheKey(l, k) in r
    ensures forall p :: p in r ==> exists k :: k in keys && p == CacheKey(l, k)
  {
    set k | k in keys :: CacheKey(l, k)
  }

  /** The keys of a list of key/value pairs, in order. */
  function ItemKeys<V>(items: seq<(string, V)>): (r: seq<string>)
    ensures |r| == |items|
    ensures forall i :: 0 <= i < |items| ==> r[i] == items[i].0
  {
    seq(|items|, i requires 0 <= i < |items| => items[i].0)
  }

  /** Peeling the first key off a list of keys. */
  lemma KeyPathsCons(l: Layout, keys: seq<string>)
    requires keys != []
    ensures KeyPaths(l, keys) == {CacheKey(l, keys[0])} + KeyPaths(l, keys[1..])
  {
  }

  /** `keys[i]` is the first key whose read raises, and it raises `e`. */
  ghost predicate FailsFirstAt<V>(read: string -> Result<V>, keys: seq<string>, i: int, e: CacheError) {
    && 0 <= i < |keys|
    && read(keys[i]) == Err(e)
    && forall j :: 0 <= j < i ==> read(keys[j]).Ok?
  }

  /** A first failure after a key that reads fine is a first failure of the
      longer list, one position later. */
  lemma FailsFirstShift<V>(read: string -> Result<V>, keys: seq<string>, e: CacheError)
    requires keys != [] && read(keys[0]).Ok?
    requires exists i :: FailsFirstAt(read, keys[1..], i, e)
    ensures exists i :: FailsFirstAt(read, keys, i, e)
  {
    var i :| FailsFirstAt(read, keys[1..], i, e);
    forall j | 0 <= j < i + 1
      ensures read(keys[j]).Ok?
    {
      if j > 0 {
        assert keys[j] == keys[1..][j - 1];
      }
    }
    assert FailsFirstAt(read, keys, i + 1, e);
  }

  /** The `foreach` of `getMultiple`, with the per-key read as a parameter:
      read each key in order, stop at the first read that raises, otherwise
      map every key to what its read returned. */
  function ReadEach<V>(read: string -> Result<V>, keys: seq<string>): (r: Result<map<string, V>>)
    ensures r.Ok? <==> forall i :: 0 <= i < |keys| ==> read(keys[i]).Ok?
    ensures r.Ok? ==> r.value.Keys == set k | k in keys
    ensures r.Ok? ==> forall i :: 0 <= i < |keys| ==> r.value[keys[i]] == read(keys[i]).value
    ensures r.Err? ==> exists i :: FailsFirstAt(read, keys, i, r.error)
    decreases |keys|
  {
    if keys == [] then Ok(map[])
    else
      match read(keys[0])
      case Err(e) =>
        assert FailsFirstAt(read, keys, 0, e);
        Err(e)
      case Ok(v) =>
        match ReadEach(read, keys[1..])
        case Err(e) =>
          FailsFirstShift(read, keys, e);
          Err(e)
        case Ok(m) =>
          assert keys == [keys[0]] + keys[1..];
          Ok(m[keys[0] := v])
  }

  /** `getMultiple`: a non-array raises before anything is read; otherwise
      each input key maps to its `get` result (duplicates collapse to one
      entry). */
  function GetMultiple<V>(drv: Driver<V>, fs: FileSystem, keys: Arg<string>, default: V, now: int)
    : (r: Result<map<string, V>>)
    ensures keys.NotArray? ==> r == Err(InvalidArgument(KeysInvalid))
    ensures keys.IsArray? ==>
              (r.Ok? <==> forall i :: 0 <= i < |keys.items| ==> Get(drv, fs, keys.items[i], default, now).Ok?)
    ensures keys.IsArray? && r.Ok? ==> r.value.Keys == set k | k in keys.items
    ensures keys.IsArray? && r.Ok? ==>
              forall i :: 0 <= i < |keys.items| ==> r.value[keys.items[i]] == Get(drv, fs, keys.items[i], default, now).value
    ensures keys.IsArray? && r.Err? ==>
              exists i :: 0 <= i < |keys.items| && Get(drv, fs, keys.items[i], default, now) == Err(r.error)
                          && forall j :: 0 <= j < i ==> Get(drv, fs, keys.items[j], default, now).Ok?
  {
    match keys
    case NotArray => Err(InvalidArgument(KeysInvalid))
    case IsArray(ks) =>
      var read := k => Get(drv, fs, k, default, now);
      var r := ReadEach(read, ks);
      if r.Err? then
        FirstFailedGet(drv, fs, read, ks, default, now, r.error);
        r
      else r
  }

  /** A first failure of the per-key read, stated in terms of `get`. */
  lemma FirstFailedGet<V>(drv: Driver<V>, fs: FileSystem, read: string -> Result<V>, keys: seq<string>, default: V,
                          now: int, e: CacheError)
    requires forall k :: read(k) == Get(drv, fs, k, default, now)
    requires exists i :: FailsFirstAt(read, keys, i, e)
    ensures exists i :: 0 <= i < |keys| && Get(drv, fs, keys[i], default, now) == Err(e)
                        && forall j :: 0 <= j < i ==> Get(drv, fs, keys[j], default, now).Ok?
  {
    var i :| FailsFirstAt(read, keys, i, e);
    assert Get(drv, fs, keys[i], default, now) == Err(e);
  }

  /** The `foreach` of `setMultiple`: `set` per pair in order, with the shared
      TTL; `writes[i]` is the write oracle of the i-th pair and the per-item
      results are dropped. Only the pairs' paths can change. */
  function SetEach<V(!new)>(drv: Driver<V>, fs: FileSystem, items: seq<(string, V)>, ttl: Option<int>, now: int,
                            writes: seq<bool>)
    : (r: FileSystem)
    requires |writes| == |items|
    ensures forall p :: p !in KeyPaths(drv.layout, ItemKeys(items)) ==> SameAt(fs, r, p)
    decreases |items|
  {
    if items == [] then fs
    else
      var fs1 := Set(drv, fs, items[0].0, items[0].1, ttl, now, writes[0]).fs;
      assert ItemKeys(items)[1..] == ItemKeys(items[1..]);
      KeyPathsCons(drv.layout, ItemKeys(items));
      SetEach(drv, fs1, items[1..], ttl, now, writes[1..])
  }

  /** `setMultiple`: a non-array raises before any write; otherwise every pair
      is written in turn and the result is `true` whatever the writes did. */
  function SetMultiple<V(!new)>(drv: Driver<V>, fs: FileSystem, values: Arg<(string, V)>, ttl: Option<int>, now: int,
                                writes: seq<bool>)
    : (r: Result<Step<bool>>)
    requires values.IsArray? ==> |writes| == |values.items|
    ensures values.NotArray? <==> r.Err?
    ensures r.Err? ==> r.error == InvalidArgument(ValuesInvalid)
    ensures r.Ok? ==> r.value.result
    ensures r.Ok? ==> forall p :: p !in KeyPaths(drv.layout, ItemKeys(values.items)) ==> SameAt(fs, r.value.fs, p)
  {
    match values
    case NotArray => Err(InvalidArgument(ValuesInvalid))
    case IsArray(items) => Ok(Step(true, SetEach(drv, fs, items, ttl, now, writes)))
  }

  /** The `foreach` of `deleteMultiple`: `delete` per key in order, results
      dropped. In closed form: exactly the writable regular files among the
      keys' paths are removed. */
  function DeleteEach<V>(drv: Driver<V>, fs: FileSystem, keys: seq<string>): (r: FileSystem)
    ensures forall p :: p in r <==> p in fs && !(p in KeyPaths(drv.layout, keys) && IsFile(fs, p) && IsWritable(fs, p))
    ensures forall p :: p in r ==> r[p] == fs[p]
    decreases |keys|
  {
    if keys == [] then fs
    else
      var path := CacheKey(drv.layout, keys[0]);
      var fs1 := Delete(drv, fs, keys[0]).fs;
      var r := DeleteEach(drv, fs1, keys[1..]);
      DeleteRemovesWritableFile(drv, fs, keys[0]);
      KeyPathsCons(drv.layout, keys);
      RemoveThenRemoveRest(fs, fs1, r, path, KeyPaths(drv.layout, keys[1..]));
      r
  }

  /** Removing `path` if it is a writable file, then the writable files among
      `rest`, removes the writable files among `{path} + rest`. */
  lemma RemoveThenRemoveRest(fs: FileSystem, fs1: FileSystem, r: FileSystem, path: string, rest: set<string>)
    requires fs1 == if IsFile(fs, path) && IsWritable(fs, path) then fs - {path} else fs
    requires forall p :: p in r <==> p in fs1 && !(p in rest && IsFile(fs1, p) && IsWritable(fs1, p))
    requires forall p :: p in r ==> r[p] == fs1[p]
    ensures forall p :: p in r <==> p in fs && !(p in {path} + rest && IsFile(fs, p) && IsWritable(fs, p))
    ensures forall p :: p in r ==> r[p] == fs[p]
  {
  }

  /** The effect of one `delete` on the filesystem, as a map operation. */
  lemma DeleteRemovesWritableFile<V>(drv: Driver<V>, fs: FileSystem, key: string)
    ensures var path := CacheKey(drv.layout, key);
            Delete(drv, fs, key).fs == if IsFile(fs, path) && IsWritable(fs, path) then fs - {path} else fs
  {
  }

  /** `deleteMultiple`: a non-array raises before any delete; otherwise every
      key is deleted in turn and the result is `true`, even when some delete
      returned `false`. */
  function DeleteMultiple<V>(drv: Driver<V>, fs: FileSystem, keys: Arg<string>): (r: Result<Step<bool>>)
    ensures keys.NotArray? <==> r.Err?
    ensures r.Err? ==> r.error == InvalidArgument(KeysInvalid)
    ensures r.Ok? ==> r.value.result
    ensures r.Ok? ==> forall p :: p in r.value.fs <==>
                        p in fs && !(p in KeyPaths(drv.layout, keys.items) && IsFile(fs, p) && IsWritable(fs, p))
    ensures r.Ok? ==> forall p :: p in r.value.fs ==> r.value.fs[p] == fs[p]
  {
    match keys
    case NotArray => Err(InvalidArgument(KeysInvalid))
    case IsArray(ks) => Ok(Step(true, DeleteEach(drv, fs, ks)))
  }
}

=== FILE: driver.dfy ===
/**
 The single-key operations of the file-backed cache driver, as pure
 transitions over the abstract filesystem.
 */
module FileSystemDriver {
  import opened Results
  import opened FileStore
  import opened KeyCodec
  import opened Entries

  /** One driver instance: its path layout, its packer and the expiry rule
      of the entries it reads (`FileStorage::isExpired`, with the clock made a
      parameter). */
  datatype Driver<!V> = Driver(layout: Layout, packer: Packer<V>, isExpired: (FileStorage<V>, int) -> bool)

  const CreateDirMessage: string := "Has no permission to create cache directory!"

  /** The constructor's check: when the store directory is missing it is
      created (`mkdirOk` says whether `mkdir` succeeds), and a failure raises. */
  function Construct(l: Layout, fs: FileSystem, mkdirOk: bool): (r: Result<FileSystem>)
    ensures r.Err? <==> !Exists(fs, l.storePath) && !mkdirOk
    ensures r.Err? ==> r.error == NoPermission(CreateDirMessage)
    ensures r.Ok? ==> Exists(r.value, l.storePath)
    ensures r.Ok? ==> forall p :: p != l.storePath ==> SameAt(fs, r.value, p)
    ensures r.Ok? && Exists(fs, l.storePath) ==> r.value == fs
  {
    if Exists(fs, l.storePath) then Ok(fs)
    else if mkdirOk then Ok(fs[l.storePath := Dir(true)])
    else Err(NoPermission(CreateDirMessage))
  }

  /** `file_get_contents` followed by `unpack`: the entry stored at `path`,
      `None` when the path is missing or its bytes do not decode. A directory
      reads as the empty string, so the packer decides what it holds. */
  function Load<V>(p: Packer<V>, fs: FileSystem, path: string): Option<FileStorage<V>>
  {
    match GetContents(fs, path)
    case None => None
    case Some(bytes) => p.unpack(bytes)
  }

  /** The entry of `key` exists, decodes, and has not expired at `now`. */
  predicate IsLive<V>(drv: Driver<V>, fs: FileSystem, key: string, now: int) {
    var e := Load(drv.packer, fs, CacheKey(drv.layout, key));
    e.Some? && !drv.isExpired(e.value, now)
  }

  /** `get`: the stored value when the entry is live, `default` when the path
      is missing or the entry has expired (the file stays: expiry is lazy),
      an error when something is at the path that does not decode. */
  function Get<V>(drv: Driver<V>, fs: FileSystem, key: string, default: V, now: int): (r: Result<V>)
    ensures !Exists(fs, CacheKey(drv.layout, key)) ==> r == Ok(default)
    ensures r.Err? <==> Exists(fs, CacheKey(drv.layout, key)) && Load(drv.packer, fs, CacheKey(drv.layout, key)).None?
    ensures r.Err? ==> r.error == CorruptEntry(CacheKey(drv.layout, key))
    ensures IsLive(drv, fs, key, now) ==> r == Ok(Load(drv.packer, fs, CacheKey(drv.layout, key)).value.data)
    ensures r.Ok? && !IsLive(drv, fs, key, now) ==> r == Ok(default)
    ensures IsDir(fs, CacheKey(drv.layout, key)) ==> (r.Err? <==> drv.packer.unpack([]).None?)
  {
    var file := CacheKey(drv.layout, key);
    if !Exists(fs, file) then Ok(default)
    else match Load(drv.packer, fs, file)
      case None => Err(CorruptEntry(file))
      case Some(obj) => if drv.isExpired(obj, now) then Ok(default) else Ok(obj.data)
  }

  /** `fetch`: like `get`, but also reports whether a live entry was found, so
      a stored value equal to `default` can be told apart from a miss. */
  function Fetch<V>(drv: Driver<V>, fs: FileSystem, key: string, default: V, now: int): (r: Result<(bool, V)>)
    ensures r.Ok? <==> Get(drv, fs, key, default, now).Ok?
    ensures r.Err? ==> r.error == Get(drv, fs, key, default, now).error
    ensures r.Ok? ==> r.value.1 == Get(drv, fs, key, default, now).value
    ensures r.Ok? ==> (r.value.0 <==> IsLive(drv, fs, key, now))
    ensures r.Ok? && !r.value.0 ==> r.value.1 == default
  {
    var file := CacheKey(drv.layout, key);
    if !Exists(fs, file) then Ok((false, default))
    else match Load(drv.packer, fs, file)
      case None => Err(CorruptEntry(file))
      case Some(obj) => if drv.isExpired(obj, now) then Ok((false, default)) else Ok((true, obj.data))
  }

  /** `set`: packs a fresh entry built at `now` and overwrites the key's file.
      `writeOk` is the oracle for the write. The result is `(bool)` of the
      byte count: true when the write happened and the encoding is not empty.
      No other path changes. */
  function Set<V(!new)>(drv: Driver<V>, fs: FileSystem, key: string, value: V, ttl: Option<int>, now: int, writeOk: bool)
    : (r: Step<bool>)
    ensures r.result <==> writeOk && CanWrite(fs, CacheKey(drv.layout, key))
                          && |drv.packer.pack(FileStorage(value, ttl, now))| > 0
    ensures !(writeOk && CanWrite(fs, CacheKey(drv.layout, key))) ==> r.fs == fs
    ensures writeOk && CanWrite(fs, CacheKey(drv.layout, key)) ==>
              IsFile(r.fs, CacheKey(drv.layout, key)) && r.fs[CacheKey(drv.layout, key)].writable
    ensures writeOk && CanWrite(fs, CacheKey(drv.layout, key)) ==>
              r.fs[CacheKey(drv.layout, key)].content == drv.packer.pack(FileStorage(value, ttl, now))
    ensures writeOk && CanWrite(fs, CacheKey(drv.layout, key)) && Lossless(drv.packer) ==>
              Load(drv.packer, r.fs, CacheKey(drv.layout, key)) == Some(FileStorage(value, ttl, now))
    ensures forall p :: p != CacheKey(drv.layout, key) ==> SameAt(fs, r.fs, p)
  {
    var file := CacheKey(drv.layout, key);
    var content := drv.packer.pack(FileStorage(value, ttl, now));
    PutContents(fs, file, content, writeOk)
  }

  /** `delete`: a missing path is a successful no-op; a path that is not
      writable makes it fail with nothing changed; otherwise the file is
      unlinked (an unlink of a directory fails silently) and it succeeds. */
  function Delete<V>(drv: Driver<V>, fs: FileSystem, key: string): (r: Step<bool>)
    ensures r.result <==> !Exists(fs, CacheKey(drv.layout, key)) || IsWritable(fs, CacheKey(drv.layout, key))
    ensures Exists(r.fs, CacheKey(drv.layout, key)) <==>
              Exists(fs, CacheKey(drv.layout, key)) && !(IsFile(fs, CacheKey(drv.layout, key)) && r.result)
    ensures Exists(r.fs, CacheKey(drv.layout, key)) ==> SameAt(fs, r.fs, CacheKey(drv.layout, key))
    ensures forall p :: p != CacheKey(drv.layout, key) ==> SameAt(fs, r.fs, p)
  {
    var file := CacheKey(drv.layout, key);
    if Exists(fs, file) then
      if !IsWritable(fs, file) then Step(false, fs)
      else Step(true, Unlink(fs, file))
    else Step(true, fs)
  }

  /** `has`: existence of the key's path only; expiry is not consulted. Every
      key a read finds live is present, and an absent key is a miss for every
      read; the converse fails for expired entries (see
      `DriverProperties.HasIgnoresExpiry`). */
  function Has<V(!new)>(drv: Driver<V>, fs: FileSystem, key: string): (r: bool)
    ensures r <==> Exists(fs, CacheKey(drv.layout, key))
    ensures forall now :: IsLive(drv, fs, key, now) ==> r
    ensures !r ==> forall default: V, now: int :: Fetch(drv, fs, key, default, now) == Ok((false, default))
  {
    Exists(fs, CacheKey(drv.layout, key))
  }
}

=== FILE: entries.dfy ===
/**
 The stored entry (`FileStorage`) and the packer that turns it into bytes.
 Neither class is part of this model; both are described only by what the
 driver relies on.
 */
module Entries {
  import opened Results
  import opened FileStore

  /** `new FileStorage($value, $ttl)`: the value, the TTL it was given and the
      clock reading at which it was built. */
  datatype FileStorage<V> = FileStorage(data: V, ttl: Option<int>, createdAt: int)

  /** The packer collaborator: `pack` encodes an entry, `unpack` decodes bytes
      and yields `None` when they are not an encoded entry. */
  datatype Packer<!V> = Packer(pack: FileStorage<V> -> Bytes, unpack: Bytes -> Option<FileStorage<V>>)

  /** The assumption the driver makes of its packer: decoding an encoding
      gives the entry back. It is stated, never proved; lemmas that need it
      take it as a precondition. */
  ghost predicate Lossless<V(!new)>(p: Packer<V>) {
    forall e :: p.unpack(p.pack(e)) == Some(e)
  }

  /** One expiry rule an entry may follow: without a TTL it never expires,
      otherwise it expires once `createdAt + ttl` is reached. The driver
      itself is parametric in the rule. */
  predicate DeadlineExpired<V>(e: FileStorage<V>, now: int) {
    e.ttl.Some? && now >= e.createdAt + e.ttl.value
  }
}

=== FILE: file_store.dfy ===
/**
 An abstract filesystem: a finite map from path strings to nodes. Only the
 handful of PHP filesystem primitives the cache driver calls are modelled.
 */
module FileStore {
  import opened Results

  newtype byte = b: int | 0 <= b < 256

  type Bytes = seq<byte>

  /** A regular file with its contents, or a directory; both carry the
      `is_writable` flag. */
  datatype Node = File(content: Bytes, writable: bool) | Dir(writable: bool)

  type FileSystem = map<string, Node>

  /** A new filesystem state together with what the operation returned. */
  datatype Step<+T> = Step(result: T, fs: FileSystem)

  /** `file_exists`: true for files and directories alike. */
  predicate Exists(fs: FileSystem, path: string) {
    path in fs
  }

  /** `is_dir`. */
  predicate IsDir(fs: FileSystem, path: string) {
    path in fs && fs[path].Dir?
  }

  predicate IsFile(fs: FileSystem, path: string) {
    path in fs && fs[path].File?
  }

  /** `is_writable`: false for a missing path. */
  predicate IsWritable(fs: FileSystem, path: string) {
    path in fs && fs[path].writable
  }

  /** `fs1` and `fs2` agree at `path`: both lack it or both hold the same node. */
  predicate SameAt(fs1: FileSystem, fs2: FileSystem, path: string) {
    (path in fs1 <==> path in fs2) && (path in fs1 ==> fs1[path] == fs2[path])
  }

  /** `file_get_contents`: the contents of a regular file; `None` for a
      missing path (PHP's `false`); the empty string for a directory (PHP
      opens it, the read fails, and what was read so far is nothing). */
  function GetContents(fs: FileSystem, path: string): (r: Option<Bytes>)
    ensures r.Some? <==> Exists(fs, path)
    ensures IsFile(fs, path) ==> r == Some(fs[path].content)
    ensures IsDir(fs, path) ==> r == Some([])
  {
    if IsFile(fs, path) then Some(fs[path].content)
    else if IsDir(fs, path) then Some([])
    else None
  }

  /** Whether `file_put_contents` can open `path` for writing: the path is
      free, or it is a regular file that is writable. */
  predicate CanWrite(fs: FileSystem, path: string) {
    path !in fs || (fs[path].File? && fs[path].writable)
  }

  /** `file_put_contents(path, data)` cast to `bool`: the file is fully
      overwritten when the oracle `ok` allows it (it stands for every failure
      the model does not see: disk full, a missing parent directory, ...) and
      the path can be opened. The byte count it returns is truthy only for
      non-empty `data`, so writing nothing creates or truncates the file yet
      reports failure. When no write happens nothing changes. */
  function PutContents(fs: FileSystem, path: string, data: Bytes, ok: bool): (r: Step<bool>)
    ensures r.result <==> ok && CanWrite(fs, path) && |data| > 0
    ensures ok && CanWrite(fs, path) ==> IsFile(r.fs, path) && r.fs[path].content == data && r.fs[path].writable
    ensures !(ok && CanWrite(fs, path)) ==> r.fs == fs
    ensures forall p :: p != path ==> SameAt(fs, r.fs, p)
  {
    if ok && CanWrite(fs, path) then Step(|data| > 0, fs[path := File(data, true)])
    else Step(false, fs)
  }

  /** `unlink`: removes a regular file; on a directory or a missing path it
      fails and nothing changes. Its return value is never consulted by the
      driver, so it is not modelled. */
  function Unlink(fs: FileSystem, path: string): (r: FileSystem)
    ensures path in r <==> path in fs && !IsFile(fs, path)
    ensures forall p :: p != path ==> SameAt(fs, r, p)
    ensures path in r ==> r[path] == fs[path]
  {
    if IsFile(fs, path) then fs - {path} else fs
  }
}

=== FILE: key_codec.dfy ===
/**
 The mapping from a logical cache key to the path of its file:
 `storePath + SEP + prefix + key + ".cache"`.
 */
module KeyCodec {
  import opened Results

  /** The suffix every cache file carries. */
  const Suffix: string := ".cache"

  /** The fixed configuration of one driver instance: the store directory,
      the platform's directory separator and the driver's key prefix. */
  datatype Layout = Layout(storePath: string, sep: string, prefix: string)

  /** `getPrefix`: the string every path of this driver starts with: the
      store directory, the separator, then the driver's prefix. */
  function GetPrefix(l: Layout): (r: string)
    ensures |r| == |l.storePath| + |l.sep| + |l.prefix|
    ensures l.storePath + l.sep <= r
    ensures r[|l.storePath|..|l.storePath| + |l.sep|] == l.sep
    ensures r[|l.storePath| + |l.sep|..] == l.prefix
  {
    var r := l.storePath + l.sep + l.prefix;
    assert r[|l.storePath|..|l.storePath| + |l.sep|] == l.sep;
    r
  }

  /** `getCacheKey`: the path of the file holding `key`. */
  function CacheKey(l: Layout, key: string): (path: string)
    ensures GetPrefix(l) <= path
    ensures |path| == |GetPrefix(l)| + |key| + |Suffix|
    ensures path[|GetPrefix(l)|..|path| - |Suffix|] == key
    ensures path[|path| - |Suffix|..] == Suffix
  {
    var pre := GetPrefix(l);
    var path := pre + key + Suffix;
    assert path[..|pre|] == pre;
    assert path[|pre|..|path| - |Suffix|] == key;
    assert path[|path| - |Suffix|..] == Suffix;
    path
  }

  /** The inverse of `CacheKey`: the key whose file is `path`, if `path` has
      this driver's prefix and the cache suffix. */
  function KeyOf(l: Layout, path: string): (r: Option<string>)
  {
    var n := |GetPrefix(l)|;
    if n + |Suffix| <= |path| && GetPrefix(l) <= path && path[|path| - |Suffix|..] == Suffix
    then Some(path[n..|path| - |Suffix|])
    else None
  }

  /** Decoding a cache path gives back its key. */
  lemma KeyOfCacheKey(l: Layout, key: string)
    ensures KeyOf(l, CacheKey(l, key)) == Some(key)
  {
  }

  /** Every path that decodes is the cache path of the key it decodes to. */
  lemma CacheKeyOfKeyOf(l: Layout, path: string)
    requires KeyOf(l, path).Some?
    ensures CacheKey(l, KeyOf(l, path).value) == path
  {
  }

  /** Within one driver the mapping is injective on path strings: distinct
      keys have distinct path strings. Paths are not normalised, so two such
      strings may still name one file ("//", ".", "..", links). */
  lemma CacheKeyInjective(l: Layout, k1: string, k2: string)
    ensures CacheKey(l, k1) == CacheKey(l, k2) <==> k1 == k2
  {
  }

  /** `a + x + s == a + y + s` only when `x == y`. */
  lemma CancelAround(a: string, x: string, y: string, s: string)
    requires a + x + s == a + y + s
    ensures x == y
  {
    assert |x| == |y|;
    assert x == (a + x + s)[|a|..|a| + |x|];
    assert y == (a + y + s)[|a|..|a| + |y|];
  }

  /** Across drivers sharing a store, two paths coincide exactly when the
      prefixed keys `prefix + key` coincide; so the mapping is not injective
      across prefixes. */
  lemma CacheKeyAcrossPrefixes(l1: Layout, l2: Layout, k1: string, k2: string)
    requires l1.storePath == l2.storePath && l1.sep == l2.sep
    ensures CacheKey(l1, k1) == CacheKey(l2, k2) <==> l1.prefix + k1 == l2.prefix + k2
  {
    var root := l1.storePath + l1.sep;
    assert CacheKey(l1, k1) == root + (l1.prefix + k1) + Suffix;
    assert CacheKey(l2, k2) == root + (l2.prefix + k2) + Suffix;
    if CacheKey(l1, k1) == CacheKey(l2, k2) {
      CancelAround(root, l1.prefix + k1, l2.prefix + k2, Suffix);
    }
  }

  /** Prefix "a" with key "bc" and prefix "ab" with key "c" share one file. */
  lemma PrefixCollision(storePath: string, sep: string)
    ensures CacheKey(Layout(storePath, sep, "a"), "bc") == CacheKey(Layout(storePath, sep, "ab"), "c")
  {
  }

  /** A driver whose prefix extends another's has all its paths under the
      shorter driver's prefix. */
  lemma LongerPrefixNested(l1: Layout, l2: Layout, key: string)
    requires l1.storePath == l2.storePath && l1.sep == l2.sep
    requires l1.prefix <= l2.prefix
    ensures GetPrefix(l1) <= CacheKey(l2, key)
  {
  }
}

=== FILE: prefix_scanner.dfy ===
/**
 Prefix-scoped deletion: `clearPrefix` globs every path starting with the
 driver's prefix followed by a sub-prefix and unlinks the ones that are not
 directories; `clear` is the empty sub-prefix.
 */
module PrefixScanner {
  import opened FileStore
  import opened KeyCodec
  import opened FileSystemDriver

  /** `listing` is what `glob(pattern . '*')` returns, in some filesystem
      order: every existing path that starts with `pattern`, and nothing else.
      Matching is plain string-prefix matching. */
  predicate IsListing(fs: FileSystem, pattern: string, listing: seq<string>) {
    && (forall p :: p in listing ==> p in fs && pattern <= p)
    && (forall p :: p in fs && pattern <= p ==> p in listing)
  }

  /** The `foreach` of `clearPrefix`: skip directories, unlink the rest. A
      path listed twice is gone the second time and its unlink fails
      silently. */
  function UnlinkEach(fs: FileSystem, files: seq<string>): (r: FileSystem)
    ensures forall p :: p in r <==> p in fs && !(p in files && IsFile(fs, p))
    ensures forall p :: p in r ==> r[p] == fs[p]
    decreases |files|
  {
    if files == [] then fs
    else
      var fs1 := if IsDir(fs, files[0]) then fs else Unlink(fs, files[0]);
      assert files == [files[0]] + files[1..];
      UnlinkEach(fs1, files[1..])
  }

  /** `clearPrefix`: removes exactly the regular files whose path starts with
      `getPrefix() . prefix`, in whatever order the listing gives, keeps
      directories and every other path, and returns `true`. */
  function ClearPrefix<V>(drv: Driver<V>, fs: FileSystem, prefix: string, listing: seq<string>): (r: Step<bool>)
    requires IsListing(fs, GetPrefix(drv.layout) + prefix, listing)
    ensures r.result
    ensures forall p :: p in r.fs <==> p in fs && !(IsFile(fs, p) && GetPrefix(drv.layout) + prefix <= p)
    ensures forall p :: p in r.fs ==> r.fs[p] == fs[p]
  {
    Step(true, UnlinkEach(fs, listing))
  }

  /** `clear`: `clearPrefix('')`, i.e. every regular file under the driver's
      prefix — including files of any other driver whose prefix extends this
      one's. */
  function Clear<V>(drv: Driver<V>, fs: FileSystem, listing: seq<string>): (r: Step<bool>)
    requires IsListing(fs, GetPrefix(drv.layout), listing)
    ensures r == ClearPrefix(drv, fs, "", listing)
    ensures forall p :: p in r.fs <==> p in fs && !(IsFile(fs, p) && GetPrefix(drv.layout) <= p)
  {
    assert GetPrefix(drv.layout) + "" == GetPrefix(drv.layout);
    ClearPrefix(drv, fs, "", listing)
  }
}

=== FILE: properties.dfy ===
/**
 Properties relating the driver's operations to each other: the write/read
 round trip, lazy expiry and the `has`/`get` asymmetry, idempotent delete,
 independence of distinct keys, and the reach of prefix deletion.
 */
module DriverProperties {
  import opened Results
  import opened FileStore
  import opened KeyCodec
  import opened Entries
  import opened FileSystemDriver
  import opened BatchOperations
  import opened PrefixScanner

  /** After a successful `set`, reading the key back while the new entry is
      unexpired yields the value that was set, and `fetch` reports a hit. */
  lemma SetThenGet<V(!new)>(drv: Driver<V>, fs: FileSystem, key: string, value: V, ttl: Option<int>, now: int,
                            default: V, later: int)
    requires Lossless(drv.packer)
    requires Set(drv, fs, key, value, ttl, now, true).result
    requires !drv.isExpired(FileStorage(value, ttl, now), later)
    ensures var fs' := Set(drv, fs, key, value, ttl, now, true).fs;
            && Get(drv, fs', key, default, later) == Ok(value)
            && Fetch(drv, fs', key, default, later) == Ok((true, value))
            && Has(drv, fs', key)
  {
  }

  /** `set` reports the byte count as a boolean: an empty encoding is written
      (the key is present afterwards) yet `set` returns false. */
  lemma EmptyEncodingReportsFailure<V(!new)>(drv: Driver<V>, fs: FileSystem, key: string, value: V,
                                             ttl: Option<int>, now: int)
    requires drv.packer.pack(FileStorage(value, ttl, now)) == []
    requires CanWrite(fs, CacheKey(drv.layout, key))
    ensures !Set(drv, fs, key, value, ttl, now, true).result
    ensures Has(drv, Set(drv, fs, key, value, ttl, now, true).fs, key)
  {
  }

  /** An entry that has expired stays on disk: `has` still answers true while
      `get` returns the default and `fetch` reports a miss. */
  lemma HasIgnoresExpiry<V(!new)>(drv: Driver<V>, fs: FileSystem, key: string, default: V, now: int)
    requires Load(drv.packer, fs, CacheKey(drv.layout, key)).Some?
    requires drv.isExpired(Load(drv.packer, fs, CacheKey(drv.layout, key)).value, now)
    ensures Has(drv, fs, key)
    ensures Get(drv, fs, key, default, now) == Ok(default)
    ensures Fetch(drv, fs, key, default, now) == Ok((false, default))
  {
  }

  /** Under the deadline expiry rule, a value set with a positive TTL is read
      back before the deadline. */
  lemma PositiveTtlIsReadBack<V(!new)>(drv: Driver<V>, fs: FileSystem, key: string, value: V, ttl: int, now: int,
                                       default: V, later: int)
    requires Lossless(drv.packer)
    requires forall e, t :: drv.isExpired(e, t) == DeadlineExpired(e, t)
    requires Set(drv, fs, key, value, Some(ttl), now, true).result
    requires now <= later < now + ttl
    ensures Get(drv, Set(drv, fs, key, value, Some(ttl), now, true).fs, key, default, later) == Ok(value)
  {
  }

  /** Under the deadline expiry rule, a value set with a TTL already in the
      past is never read back, yet `has` reports the key present. */
  lemma PastTtlIsPresentButMissed<V(!new)>(drv: Driver<V>, fs: FileSystem, key: string, value: V, ttl: int, now: int,
                                           default: V, later: int)
    requires Lossless(drv.packer)
    requires forall e, t :: drv.isExpired(e, t) == DeadlineExpired(e, t)
    requires Set(drv, fs, key, value, Some(ttl), now, true).result
    requires ttl <= 0 && later >= now
    ensures var fs' := Set(drv, fs, key, value, Some(ttl), now, true).fs;
            Has(drv, fs', key) && Get(drv, fs', key, default, later) == Ok(default)
  {
  }

  /** `set` of one key does not change what `get` and `has` see for any other
      key of the same driver (distinct keys have distinct path strings). */
  lemma SetLeavesOtherKeys<V(!new)>(drv: Driver<V>, fs: FileSystem, key: string, value: V, ttl: Option<int>, now: int,
                                    writeOk: bool, other: string, default: V, later: int)
    requires other != key
    ensures var fs' := Set(drv, fs, key, value, ttl, now, writeOk).fs;
            && Get(drv, fs', other, default, later) == Get(drv, fs, other, default, later)
            && Has(drv, fs', other) == Has(drv, fs, other)
  {
  }

  /** `delete` is idempotent: a second call returns what the first returned
      and changes nothing more. In particular, after a `delete` that returned
      true, deleting again also returns true. */
  lemma DeleteIdempotent<V>(drv: Driver<V>, fs: FileSystem, key: string)
    ensures Delete(drv, Delete(drv, fs, key).fs, key) == Delete(drv, fs, key)
  {
  }

  /** After a successful `delete` of a key whose path is not a directory, the
      key is absent: `has` is false and `get` returns the default. */
  lemma DeleteThenMiss<V(!new)>(drv: Driver<V>, fs: FileSystem, key: string, default: V, now: int)
    requires Delete(drv, fs, key).result
    requires !IsDir(fs, CacheKey(drv.layout, key))
    ensures !Has(drv, Delete(drv, fs, key).fs, key)
    ensures Get(drv, Delete(drv, fs, key).fs, key, default, now) == Ok(default)
  {
  }

  /** `delete` of one key does not change what `get` and `has` see for any
      other key of the same driver. */
  lemma DeleteLeavesOtherKeys<V(!new)>(drv: Driver<V>, fs: FileSystem, key: string, other: string, default: V, now: int)
    requires other != key
    ensures Get(drv, Delete(drv, fs, key).fs, other, default, now) == Get(drv, fs, other, default, now)
    ensures Has(drv, Delete(drv, fs, key).fs, other) == Has(drv, fs, other)
  {
  }

  /** After `clear`, a key is still reported present only when its path is a
      directory: every previously set key is gone. */
  lemma ClearThenHas<V(!new)>(drv: Driver<V>, fs: FileSystem, listing: seq<string>, key: string)
    requires IsListing(fs, GetPrefix(drv.layout), listing)
    ensures Has(drv, Clear(drv, fs, listing).fs, key) <==> IsDir(fs, CacheKey(drv.layout, key))
  {
  }

  /** `clear` on a driver reaches into every driver of the same store whose
      prefix extends its own: with prefixes "a" and "ab", the first driver's
      `clear` removes the second's entries too. */
  lemma ClearReachesLongerPrefix<V, W(!new)>(drv: Driver<V>, other: Driver<W>, fs: FileSystem, listing: seq<string>, key: string)
    requires drv.layout.storePath == other.layout.storePath && drv.layout.sep == other.layout.sep
    requires drv.layout.prefix <= other.layout.prefix
    requires IsListing(fs, GetPrefix(drv.layout), listing)
    ensures Has(other, Clear(drv, fs, listing).fs, key) <==> IsDir(fs, CacheKey(other.layout, key))
  {
  }

  /** The outcome of `clearPrefix` does not depend on the order in which the
      filesystem lists the matching paths. */
  lemma ClearPrefixOrderIndependent<V>(drv: Driver<V>, fs: FileSystem, prefix: string, l1: seq<string>, l2: seq<string>)
    requires IsListing(fs, GetPrefix(drv.layout) + prefix, l1)
    requires IsListing(fs, GetPrefix(drv.layout) + prefix, l2)
    ensures ClearPrefix(drv, fs, prefix, l1) == ClearPrefix(drv, fs, prefix, l2)
  {
  }

  /** The keys of a PHP array are distinct. */
  predicate DistinctKeys<V>(items: seq<(string, V)>) {
    forall i, j :: 0 <= i < j < |items| ==> items[i].0 != items[j].0
  }

  /** What `setMultiple` leaves at each pair's path: the packed entry when
      that pair's write went through, the old contents when it failed. No
      pair overwrites another, because within one driver distinct keys have
      distinct path strings. */
  lemma {:induction false} SetEachOutcome<V(!new)>(drv: Driver<V>, fs: FileSystem, items: seq<(string, V)>,
                                                   ttl: Option<int>, now: int, writes: seq<bool>, i: int)
    requires Lossless(drv.packer)
    requires |writes| == |items| && DistinctKeys(items) && 0 <= i < |items|
    ensures PairOutcome(drv, fs, SetEach(drv, fs, items, ttl, now, writes), items[i].0, items[i].1, ttl, now, writes[i])
    decreases |items|
  {
    var path := CacheKey(drv.layout, items[i].0);
    var fs1 := Set(drv, fs, items[0].0, items[0].1, ttl, now, writes[0]).fs;
    var r := SetEach(drv, fs1, items[1..], ttl, now, writes[1..]);
    assert r == SetEach(drv, fs, items, ttl, now, writes);
    if i == 0 {
      LaterPairsSpareFirst(drv, fs1, items, ttl, now, writes);
      assert PairOutcome(drv, fs, fs1, items[0].0, items[0].1, ttl, now, writes[0]);
      OutcomeTransfer(drv, fs, fs1, r, items[0].0, items[0].1, ttl, now, writes[0]);
    } else {
      CacheKeyInjective(drv.layout, items[0].0, items[i].0);
      assert SameAt(fs, fs1, path);
      assert items[1..][i - 1] == items[i];
      DistinctTail(items);
      SetEachOutcome(drv, fs1, items[1..], ttl, now, writes[1..], i - 1);
      OutcomeBefore(drv, fs, fs1, r, items[i].0, items[i].1, ttl, now, writes[i]);
    }
  }

  /** What one `set` of `key` leaves at the key's path in `r`, judged against
      the state `fs` it started from. */
  ghost predicate PairOutcome<V>(drv: Driver<V>, fs: FileSystem, r: FileSystem, key: string, value: V, ttl: Option<int>,
                           now: int, writeOk: bool)
  {
    var path := CacheKey(drv.layout, key);
    if writeOk && CanWrite(fs, path)
    then Load(drv.packer, r, path) == Some(FileStorage(value, ttl, now))
    else SameAt(fs, r, path)
  }

  /** An outcome survives later steps that leave the path alone. */
  lemma OutcomeTransfer<V>(drv: Driver<V>, fs: FileSystem, fs1: FileSystem, r: FileSystem, key: string, value: V,
                           ttl: Option<int>, now: int, writeOk: bool)
    requires PairOutcome(drv, fs, fs1, key, value, ttl, now, writeOk)
    requires SameAt(fs1, r, CacheKey(drv.layout, key))
    ensures PairOutcome(drv, fs, r, key, value, ttl, now, writeOk)
  {
  }

  /** An outcome is unaffected by earlier steps that left the path alone. */
  lemma OutcomeBefore<V>(drv: Driver<V>, fs: FileSystem, fs1: FileSystem, r: FileSystem, key: string, value: V,
                         ttl: Option<int>, now: int, writeOk: bool)
    requires SameAt(fs, fs1, CacheKey(drv.layout, key))
    requires PairOutcome(drv, fs1, r, key, value, ttl, now, writeOk)
    ensures PairOutcome(drv, fs, r, key, value, ttl, now, writeOk)
  {
  }

  /** Dropping the first pair keeps the keys distinct. */
  lemma DistinctTail<V>(items: seq<(string, V)>)
    requires items != [] && DistinctKeys(items)
    ensures DistinctKeys(items[1..])
  {
  }

  /** With distinct keys, the pairs after the first never touch the first
      pair's path. */
  lemma LaterPairsSpareFirst<V(!new)>(drv: Driver<V>, fs: FileSystem, items: seq<(string, V)>, ttl: Option<int>,
                                      now: int, writes: seq<bool>)
    requires |writes| == |items| && items != [] && DistinctKeys(items)
    ensures SameAt(fs, SetEach(drv, fs, items[1..], ttl, now, writes[1..]), CacheKey(drv.layout, items[0].0))
  {
  }

  /** `getMultiple` after `setMultiple`: every pair whose write went through
      and whose entry is unexpired is read back with its value. */
  lemma SetMultipleThenGetMultiple<V(!new)>(drv: Driver<V>, fs: FileSystem, items: seq<(string, V)>, ttl: Option<int>,
                                            now: int, writes: seq<bool>, default: V, later: int, i: int)
    requires Lossless(drv.packer)
    requires |writes| == |items| && DistinctKeys(items) && 0 <= i < |items|
    requires writes[i] && CanWrite(fs, CacheKey(drv.layout, items[i].0))
    requires !drv.isExpired(FileStorage(items[i].1, ttl, now), later)
    ensures var fs' := SetMultiple(drv, fs, IsArray(items), ttl, now, writes).value.fs;
            var got := GetMultiple(drv, fs', IsArray([items[i].0]), default, later);
            got == Ok(map[items[i].0 := items[i].1])
  {
    SetEachOutcome(drv, fs, items, ttl, now, writes, i);
  }
}

=== FILE: results.dfy ===
/** Failure-carrying datatypes shared by the cache driver model. */
module Results {

  /** A value that may be missing (PHP's `false` / `null` returns). */
  datatype Option<+T> = None | Some(value: T)

  /** The exceptions the driver can raise. */
  datatype CacheError =
    | NoPermission(message: string)     // CacheException from the constructor
    | InvalidArgument(message: string)  // InvalidArgumentException from the batch operations
    | CorruptEntry(path: string)        // the bytes at `path` do not unpack to an entry

  /** Either a returned value or a raised exception. */
  datatype Result<+T> = Ok(value: T) | Err(error: CacheError)
}

=== FILE: scenarios.dfy ===
/**
 Two concrete call sequences of the driver over string values: a batch read after two
 writes, and a prefix-scoped clear that spares a key outside the prefix.
 */
module Scenarios {
  import opened Results
  import opened FileStore
  import opened KeyCodec
  import opened Entries
  import opened FileSystemDriver
  import opened BatchOperations
  import opened PrefixScanner
  import opened DriverProperties

  /** `set("a", "1", 10)`, `set("b", "2", 10)`, then
      `getMultiple(["a", "b", "c"], "default")` gives
      `{a: "1", b: "2", c: "default"}` when both writes succeed, "c" was never
      stored, and the reads happen before the deadline. */
  lemma GetMultipleAfterTwoSets(drv: Driver<string>, fs0: FileSystem, now: int, later: int)
    requires Lossless(drv.packer)
    requires forall e, t :: drv.isExpired(e, t) == DeadlineExpired(e, t)
    requires now <= later < now + 10
    requires !Exists(fs0, CacheKey(drv.layout, "c"))
    requires Set(drv, fs0, "a", "1", Some(10), now, true).result
    requires Set(drv, Set(drv, fs0, "a", "1", Some(10), now, true).fs, "b", "2", Some(10), now, true).result
    ensures var fs1 := Set(drv, fs0, "a", "1", Some(10), now, true).fs;
            var fs2 := Set(drv, fs1, "b", "2", Some(10), now, true).fs;
            GetMultiple(drv, fs2, IsArray(["a", "b", "c"]), "default", later)
              == Ok(map["a" := "1", "b" := "2", "c" := "default"])
  {
    var fs1 := Set(drv, fs0, "a", "1", Some(10), now, true).fs;
    var fs2 := Set(drv, fs1, "b", "2", Some(10), now, true).fs;
    PositiveTtlIsReadBack(drv, fs0, "a", "1", 10, now, "default", later);
    PositiveTtlIsReadBack(drv, fs1, "b", "2", 10, now, "default", later);
    SetLeavesOtherKeys(drv, fs1, "b", "2", Some(10), now, true, "a", "default", later);
    SetLeavesOtherKeys(drv, fs0, "a", "1", Some(10), now, true, "c", "default", later);
    SetLeavesOtherKeys(drv, fs1, "b", "2", Some(10), now, true, "c", "default", later);
    ReadThreeKeys(drv, fs2, later);
  }

  /** The batch read of "a", "b", "c" once each single read is known. */
  lemma ReadThreeKeys(drv: Driver<string>, fs: FileSystem, later: int)
    requires Get(drv, fs, "a", "default", later) == Ok("1")
    requires Get(drv, fs, "b", "default", later) == Ok("2")
    requires Get(drv, fs, "c", "default", later) == Ok("default")
    ensures GetMultiple(drv, fs, IsArray(["a", "b", "c"]), "default", later)
              == Ok(map["a" := "1", "b" := "2", "c" := "default"])
  {
    var keys := ["a", "b", "c"];
    var r := GetMultiple(drv, fs, IsArray(keys), "default", later);
    assert forall i :: 0 <= i < |keys| ==> Get(drv, fs, keys[i], "default", later).Ok? by {
      assert keys[0] == "a" && keys[1] == "b" && keys[2] == "c";
    }
    assert r.Ok?;
    assert r.value.Keys == {"a", "b", "c"} by {
      assert keys[0] == "a" && keys[1] == "b" && keys[2] == "c";
    }
    assert r.value["a"] == "1" && r.value["b"] == "2" && r.value["c"] == "default" by {
      assert keys[0] == "a" && keys[1] == "b" && keys[2] == "c";
    }
    assert r.value == map["a" := "1", "b" := "2", "c" := "default"];
  }

  /** After `set("user:1", "1", 10)`, `set("user:2", "2", 10)` and
      `set("order:1", "1", 10)` all succeed, `clearPrefix("user:")` removes the
      first two and "order:1" is still read back before its deadline. */
  lemma ClearPrefixSparesOtherKeys(drv: Driver<string>, fs0: FileSystem, listing: seq<string>, now: int, later: int)
    requires Lossless(drv.packer)
    requires forall e, t :: drv.isExpired(e, t) == DeadlineExpired(e, t)
    requires now <= later < now + 10
    requires Set(drv, fs0, "user:1", "1", Some(10), now, true).result
    requires var fs1 := Set(drv, fs0, "user:1", "1", Some(10), now, true).fs;
             Set(drv, fs1, "user:2", "2", Some(10), now, true).result
    requires var fs1 := Set(drv, fs0, "user:1", "1", Some(10), now, true).fs;
             var fs2 := Set(drv, fs1, "user:2", "2", Some(10), now, true).fs;
             Set(drv, fs2, "order:1", "1", Some(10), now, true).result
    requires var fs1 := Set(drv, fs0, "user:1", "1", Some(10), now, true).fs;
             var fs2 := Set(drv, fs1, "user:2", "2", Some(10), now, true).fs;
             var fs3 := Set(drv, fs2, "order:1", "1", Some(10), now, true).fs;
             IsListing(fs3, GetPrefix(drv.layout) + "user:", listing)
    ensures var fs1 := Set(drv, fs0, "user:1", "1", Some(10), now, true).fs;
            var fs2 := Set(drv, fs1, "user:2", "2", Some(10), now, true).fs;
            var fs3 := Set(drv, fs2, "order:1", "1", Some(10), now, true).fs;
            var fs' := ClearPrefix(drv, fs3, "user:", listing).fs;
            && !Has(drv, fs', "user:1")
            && !Has(drv, fs', "user:2")
            && Get(drv, fs', "order:1", "default", later) == Ok("1")
  {
    var fs1 := Set(drv, fs0, "user:1", "1", Some(10), now, true).fs;
    var fs2 := Set(drv, fs1, "user:2", "2", Some(10), now, true).fs;
    var fs3 := Set(drv, fs2, "order:1", "1", Some(10), now, true).fs;
    var u1, u2, o1 := CacheKey(drv.layout, "user:1"), CacheKey(drv.layout, "user:2"), CacheKey(drv.layout, "order:1");
    CacheKeyInjective(drv.layout, "user:1", "user:2");
    CacheKeyInjective(drv.layout, "user:1", "order:1");
    CacheKeyInjective(drv.layout, "user:2", "order:1");
    assert IsFile(fs3, u1) by {
      assert SameAt(fs1, fs2, u1) && SameAt(fs2, fs3, u1);
    }
    assert IsFile(fs3, u2) by {
      assert SameAt(fs2, fs3, u2);
    }
    ClearUserKeys(drv, fs3, listing, now, later);
  }

  /** The clear of "user:" in any state holding files at "user:1" and
      "user:2" and a live "order:1" entry. */
  lemma ClearUserKeys(drv: Driver<string>, fs: FileSystem, listing: seq<string>, now: int, later: int)
    requires Lossless(drv.packer)
    requires forall e, t :: drv.isExpired(e, t) == DeadlineExpired(e, t)
    requires now <= later < now + 10
    requires IsFile(fs, CacheKey(drv.layout, "user:1")) && IsFile(fs, CacheKey(drv.layout, "user:2"))
    requires Load(drv.packer, fs, CacheKey(drv.layout, "order:1")) == Some(FileStorage("1", Some(10), now))
    requires IsListing(fs, GetPrefix(drv.layout) + "user:", listing)
    ensures var fs' := ClearPrefix(drv, fs, "user:", listing).fs;
            && !Has(drv, fs', "user:1")
            && !Has(drv, fs', "user:2")
            && Get(drv, fs', "order:1", "default", later) == Ok("1")
  {
    var pre := GetPrefix(drv.layout);
    assert CacheKey(drv.layout, "user:1") == (pre + "user:") + "1.cache";
    assert CacheKey(drv.layout, "user:2") == (pre + "user:") + "2.cache";
    var order := CacheKey(drv.layout, "order:1");
    assert order[|pre|] == 'o';
    assert (pre + "user:")[|pre|] == 'u';
    assert !(pre + "user:" <= order);
    assert !drv.isExpired(FileStorage("1", Some(10), now), later);
  }
}
